=== FILE: README.md ===
# Journald logger and metrics isolator, modelled in Dafny

This project models the configuration and bookkeeping core of two Mesos agent
modules.

The **journald container logger** (`mesos-journald-logger`) reads a
container's standard output from its own standard input. It forwards each
line to journald, to a leading log file that `logrotate` rotates, or to both.
The model covers these parts:

- the validators of its command-line flags: `--destination_type`,
  `--journald_labels`, `--logrotate_max_size` and `--logrotate_filename`;
- the names of the two `logrotate` companion files, `<leading>.logrotate.conf`
  and `<leading>.logrotate.state`;
- the `logrotate` stanza it generates, where the user's options come first
  and the computed `size` line last, so the computed size wins;
- the shape of a journald record: the label fields, keys upper-cased,
  followed by one `MESSAGE` entry holding the line;
- splitting standard input into lines when reads cut lines apart;
- the `bytesWritten` accounting that triggers `rotate()` once the count
  exceeds the maximum size, and resets it to zero.

The **metrics isolator** turns its module parameters into a map, where the
last parameter with a given key wins. It then builds its service
configuration from four flags: scheme `http`/`https`, network `inet`/`unix`,
address, and endpoint. It keeps exactly one of an inet address (`host:port`
with a 16-bit port) or a unix socket address, and keeps the endpoint
verbatim. Every check the constructor makes is modelled as an `Err(Fatal)`
result.

Modules, one per file:

| file | module | models |
|---|---|---|
| `results.dfy` | `Results` | `Option`, `Result` |
| `text.dfy` | `Text` | `strings::split` on one delimiter, ASCII upper-casing, `stringify`/decimal parsing |
| `journald_flags.dfy` | `JournaldFlags` | the `Flags` struct and its validators |
| `logrotate_conf.dfy` | `LogrotateConf` | companion file names and the generated stanza |
| `journald_records.dfy` | `JournaldRecords` | the fields sent to journald for one line |
| `line_splitter.dfy` | `LineSplitter` | splitting standard input into lines across reads |
| `rotation.dfy` | `Rotation` | `bytesWritten`, `write`, `rotate()` |
| `journald_logger.dfy` | `JournaldLogger` | the read loop feeding both sinks |
| `metrics_isolator.dfy` | `MetricsIsolator` | the `MetricsIsolatorProcess` constructor and the parameter map |

Foreign services are parameters of the functions that use them:

- the memory page size (`os::pagesize()`);
- the JSON parser and the protobuf conversion of `Labels`;
- `net::IP::parse`;
- `unix::Address::create`.

The bodies of `write_journald`, `write_logrotate` and `rotate` are not part
of this model; they are modelled from their declarations and doc comments.
Those comments leave several things open, and this model settles them by
its own choice:

- Lines are delimited by `\n`, as the usage message says ("Each line
  (delineated by newline) of STDIN").
- Whether each read is split on its own, or a line cut across two reads is
  reassembled, is not said: `write_journald` only receives the read's size,
  and the class has no field for a partial line. The model keeps the
  unterminated tail of a read for the next read and flushes it as a last
  line at end of stream, so that every record is one whole input line.
- A zero-byte read is end of input: the reads after it are never taken in.
- A write adds its byte count to `bytesWritten` first. If the count then
  exceeds the maximum, `rotate()` runs and sets it to 0.
- The leading file receives each read verbatim.
- A `char` of a read stands for one byte of input.

The model follows the code on these points:

- `--logrotate_filename` is required and must be absolute for every
  destination, `journald` included. `JournaldFlags.DefaultsNeedLeadingFile`
  states this.
- The destinations are spelled `journald`, `logrotate` and
  `journald+logrotate`.
- Labels whose keys collide after upper-casing are all sent as they are. No
  label is dropped and no error is raised. This includes a label whose key
  upper-cases to `MESSAGE`: it is sent as a second `MESSAGE` field, before
  the one holding the line.

## Model

| member | source | states |
|---|---|---|
| JournaldFlags.ValidateDestinationType | journald/journald.hpp:46-54 | accepts a value iff it is exactly `journald`, `logrotate` or `journald+logrotate`; otherwise rejects with `Invalid destination type: <value>` |
| JournaldFlags.ParseDestination | journald/journald.hpp:40-54 | a value names a destination iff it is one of the three spellings, and the destination's spelling is that value |
| JournaldFlags.DestinationRoundTrip | journald/journald.hpp:43-44 | each of the three destinations parses back from its spelling |
| JournaldFlags.DefaultDestinationValid | journald/journald.hpp:45-54 | the default `journald` passes its own validator and means journald only |
| JournaldFlags.ValidateLabels | journald/journald.hpp:70-89 | an absent value is accepted and leaves `parsed_labels` alone; a JSON or protobuf failure is rejected with the matching message and leaves `parsed_labels` alone; success stores the parsed labels |
| JournaldFlags.ValidateMaxSize | journald/journald.hpp:96-104 | rejects iff the byte count is strictly below the page size, with a message quoting the page size in decimal |
| JournaldFlags.DefaultMaxSizeValid | journald/journald.hpp:94-104 | the 10 MB default passes iff the page size is at most 10 MB |
| JournaldFlags.ValidateFilename | journald/journald.hpp:124-135 | an absent value is an error, a value not starting with `/` is an error, and any other value is accepted |
| JournaldFlags.Validate | journald/journald.hpp:40-135 | the flags validate iff every validator accepts; the configuration then holds the parsed destination, the labels the label validator parsed (none when the flag is absent), a max size of at least one page, the absolute leading file, and the options, `logrotate` path and user as given |
| JournaldFlags.DefaultsNeedLeadingFile | journald/journald.hpp:117-135 | the defaults alone fail, because the leading file is required; the defaults plus an absolute leading file validate, with destination journald and no labels, whenever a page is at most 10 MB |
| Text.Upper | journald/journald.hpp:68 | upper-casing keeps the length, leaves no lower-case letter, and changes each character only in case |
| Text.UpperIdempotent | journald/journald.hpp:68 | upper-casing twice equals upper-casing once |
| Text.UpperFixedPoint | journald/journald.hpp:68 | a key is unchanged by upper-casing iff it is already upper case |
| Text.Decimal | journald/journald.hpp:100-101 | `stringify` of a number is a non-empty string of decimal digits |
| Text.ParseDecimalRoundTrip | journald/journald.hpp:100-101 | a number's decimal rendering parses back to that number |
| Text.Split | metrics/isolator.cpp:69-70 | `strings::split` on one character gives one more field than there are delimiters, empty fields included |
| Text.JoinSplit | metrics/isolator.cpp:69-70 | joining the fields of `strings::split` with the delimiter gives the original string back |
| Text.SplitPiecesFree | metrics/isolator.cpp:69-70 | no field of `strings::split` contains the delimiter |
| Text.SplitJoin | metrics/isolator.cpp:69-70 | delimiter-free fields joined with the delimiter split back into exactly those fields |
| Text.SplitAppend | journald/journald.hpp:35-36 | splitting is incremental: the complete fields of a prefix stay fields of the whole, and only its last field joins what follows |
| LogrotateConf.ConfPath | journald/journald.hpp:25 | the configuration file is the leading file name followed by `.logrotate.conf` |
| LogrotateConf.StatePath | journald/journald.hpp:26 | the state file is the leading file name followed by `.logrotate.state` |
| LogrotateConf.CompanionPathsDistinct | journald/journald.hpp:117-123 | the leading file and its two companions are pairwise distinct; a configuration file is never another leading file's state file; each companion name determines its leading file |
| LogrotateConf.CompanionPathsAbsolute | journald/journald.hpp:119-123 | the companions of an absolute leading file are absolute |
| LogrotateConf.ConfText | journald/journald.hpp:106-115 | the stanza starts with the leading file name followed by ` {` and ends with the `size` line and the closing brace |
| LogrotateConf.ConfLines | journald/journald.hpp:108-115 | the stanza's lines are the header, then the user's option lines verbatim, then `size <max>`, then `}` |
| LogrotateConf.ComputedSizeWins | journald/journald.hpp:106-115 | whatever `size` directives the options contain, the last `size` directive of the stanza is the computed maximum, and it reads back as that number |
| JournaldRecords.LabelFields | journald/journald.hpp:190-191 | one field per label, in label order; each key is upper case and equals the label key up to case; each value is the label's value |
| JournaldRecords.MakeRecord | journald/journald.hpp:214-219 | a record has one entry more than there are labels: the label fields first, then a last `MESSAGE` entry holding the line; every key is upper case |
| JournaldRecords.LabelFieldsNormalised | journald/journald.hpp:68 | normalising the keys of already normalised fields changes nothing |
| JournaldRecords.EntryRoundTrip | journald/journald.hpp:214-217 | a `KEY=value` entry reads back as its field when the key holds no `=` |
| JournaldRecords.Records | journald/journald.hpp:35-37 | one record per line, in line order |
| LineSplitter.StreamLines | journald/journald.hpp:35-37 | the lines of a whole stream hold no newline |
| LineSplitter.Feed | journald/journald.hpp:35-37 | a read yields newline-free lines, one per newline in tail plus read; those lines and the new tail, joined by newlines, are exactly the old tail followed by the read |
| LineSplitter.Flush | journald/journald.hpp:35-37 | at end of stream the kept tail is emitted as one last line iff it is non-empty (the tail-keeping reading is this model's choice) |
| LineSplitter.FeedAll | journald/journald.hpp:35-37 | over any run of reads, no line handed out holds a newline, and neither does the kept tail |
| LineSplitter.FeedAllSplits | journald/journald.hpp:35-37 | after any run of reads, the lines handed out followed by the kept tail are the split of everything read |
| LineSplitter.StreamSplitting | journald/journald.hpp:35-37 | feeding reads and flushing at the end yields exactly the lines of the whole stream |
| LineSplitter.PartitionIndependent | journald/journald.hpp:187-192 | two ways of cutting the same stream into reads yield the same lines |
| LineSplitter.FlushAtEnd | journald/journald.hpp:221-223 | nothing is left to flush iff the stream is empty or ends on a newline |
| Rotation.Write | journald/journald.hpp:194-198 | a write of n bytes rotates iff `bytesWritten + n` exceeds the maximum; a rotation leaves the count at 0, otherwise the count grows by n; the count never exceeds the maximum afterwards |
| Rotation.Rotate | journald/journald.hpp:200-201 | `rotate()` resets `bytesWritten` to 0 and keeps the maximum size |
| Rotation.ThresholdFlagsPrefix | journald/journald.hpp:194-198 | the flags of the first writes do not depend on later writes |
| Rotation.ThresholdFlagsAt | journald/journald.hpp:194-198 | each write in the reference rotates iff the bytes pending since the previous rotation (or the start), that write included, exceed the maximum |
| Rotation.ThresholdStep | journald/journald.hpp:194-198 | a write that follows the threshold rule extends the reference flags of the writes before it |
| Rotation.AccountedStep | journald/journald.hpp:194-201 | one more `Write` keeps the flags equal to the reference flags and the count equal to the bytes pending since the last rotation, and leaves the count within the maximum |
| Rotation.WriteAll | journald/journald.hpp:194-212 | over any run of writes, the rotations are exactly the reference flags of the threshold rule, and the final count is the bytes written since the last rotation |
| Rotation.NoRotationBelowThreshold | journald/journald.hpp:194-198 | writes whose sizes, with the bytes already pending, stay within the maximum never rotate, and all their bytes stay pending |
| JournaldLogger.Received | journald/journald.hpp:221-223 | the reads taken in are a prefix of the reads, none of zero bytes, and when it stops early it stops at a zero-byte read (end of input) |
| JournaldLogger.Deliver | journald/journald.hpp:186-198 | the kept tail becomes `Feed`'s new tail, which holds no newline; one read adds one journald record per newline in the kept tail and the read, keeping the earlier records, and leaves the kept tail newline-free; journald's new records are those of the complete lines, labels first; the leading file gets the read appended and one rotation flag, set iff the count plus the read's size exceeds the maximum, and the count is then 0 after a rotation and grows by the read's size otherwise; a sink that is not a destination is left unchanged |
| JournaldLogger.Run | journald/journald.hpp:183-223 | up to the first zero-byte read: journald receives one record per line of the whole input, only when journald is a destination; the leading file receives every read in order, only when logrotate is a destination; the rotations are the reference flags of the threshold rule for the configured maximum, and the count ends within that maximum; no partial line is left over |
| MetricsIsolator.ParsePort | metrics/isolator.cpp:82-86 | a port string is accepted iff it is a non-empty decimal number of at most 65535 |
| MetricsIsolator.PortRoundTrip | metrics/isolator.cpp:82-88 | every 16-bit port reads back from its decimal rendering |
| MetricsIsolator.SplitSingleColon | metrics/isolator.cpp:69-74 | an address with exactly one `:` splits into two fields, the parts before and after it |
| MetricsIsolator.InetFromAddress | metrics/isolator.cpp:68-88 | an inet address is accepted iff it has exactly one `:`, the host parses as an IP and the port as a `uint16_t`; any other number of `:` is the `host:port` error |
| MetricsIsolator.InetAddressRoundTrip | metrics/isolator.cpp:68-88 | a `:`-free IP host followed by `:` and a port reads back as that IP and port |
| MetricsIsolator.NewIsolator | metrics/isolator.cpp:53-105 | construction succeeds iff the scheme is `http`/`https`, the network is `inet`/`unix`, the address fits that network and the endpoint is set; the scheme and endpoint are then stored verbatim, and exactly the address of the named network is set |
| MetricsIsolator.ParametersToMap | metrics/isolator.cpp:187-192 | each key looks up the value of the last parameter with that key, and nothing when no parameter has it |
| MetricsIsolator.LastValue | metrics/isolator.cpp:189-192 | a key has a value iff some parameter has that key, so the map's keys are exactly the parameter keys |
| MetricsIsolator.LastValueIsLast | metrics/isolator.cpp:189-192 | the value a key ends up with is that of a parameter with the key that no later parameter overrides |

## Left out

- The libprocess actor machinery is not modelled because it is concurrency plumbing. This covers `Process`, `Future`, `Promise`, `spawn`, `dispatch` and `terminate` (journald/journald.hpp:176-223, metrics/isolator.cpp:142-173).
- Reads from standard input, file descriptors, `sd_journal_sendv` and its iovec memory, and running `logrotate` are I/O and are not modelled. Only the byte accounting and the record shape are modelled.
- Write failures on either sink are not modelled. The bodies that report them are not part of this model, and in the model every write succeeds.
- Deleting the oldest file when there are too many log files is not modelled. That happens inside `logrotate`.
- The `--logrotate_path` validator (journald/journald.hpp:142-154) is not modelled because it runs a subprocess. `JournaldFlags.Validate` does not check the path.
- The `--user` flag is carried into the configuration, but the privilege drop is not modelled.
- These foreign functions are parameters with no interpretation: JSON parsing, the protobuf conversion of `Labels`, `net::IP::parse`, `unix::Address::create` and `os::pagesize()`.
- The order in which stout's flag loader calls the validators is not part of this model. `JournaldFlags.Validate` reports the first failure in declaration order, and its success condition does not depend on that order.
- `prepare` and `cleanup` (metrics/isolator.cpp:111-131) are not modelled because they are stubs that return empty values. Module registration, logging, and the loading of `isolator::Flags` from the parameter map (metrics/isolator.cpp:194-208) are left out too. isolator.hpp, which declares those flags, is not part of this model.
- MetricsIsolator.ParsePort: accepts only plain decimal digits. `numify`'s hexadecimal (`0x`) and signed forms are not modelled, because `numify` is a foreign library.
- MetricsIsolator.NewIsolator: treats each `ASSERT` as fatal, as in a debug build. With `NDEBUG` the asserts compile to nothing, and the result is whatever the unchecked `Option::get` does.
- Rotation.Write: counts bytes with an unbounded natural number. The 64-bit `size_t` wrap-around of `bytesWritten` is not modelled, because it would need 2^64 bytes of log output.
- JournaldLogger.Run: keeps each sink's output separately, so it does not show that journald gets a read before the leading file does.
- LineSplitter.Feed: keeps a read's unterminated tail for the next read and reassembles lines cut across reads. The declarations of `write_journald` and the class's fields leave open whether each read is instead split on its own, and that reading is not modelled.
- JournaldLogger.Sizes: counts one byte per `char` of a read. Reads are strings whose characters stand for the input's bytes, so a multi-byte character encoding of the input is not modelled.

=== FILE: journald_flags.dfy ===
/**
  The command-line flags of the journald logger and their validators.

  Each validator answers like a stout flag validator: `None` accepts the
  value, `Some(message)` rejects it with that message. The foreign services a
  validator relies on (the memory page size, the JSON parser and the protobuf
  conversion of `Labels`) are parameters.
 */
module JournaldFlags {
  import opened Results
  import opened Text

  /** Where the logger pipes its standard input. */
  datatype Destination = Journald | Logrotate | JournaldAndLogrotate
  {
    predicate ToJournald() { this == Journald || this == JournaldAndLogrotate }
    predicate ToLogrotate() { this == Logrotate || this == JournaldAndLogrotate }
  }

  /** The spelling of each destination on the command line. */
  function DestinationName(d: Destination): string
  {
    match d
    case Journald => "journald"
    case Logrotate => "logrotate"
    case JournaldAndLogrotate => "journald+logrotate"
  }

  const DefaultDestinationType: string := "journald"

  /** One entry of the `Labels` protobuf: a key and its value, as given. */
  datatype Label = Label(key: string, value: string)

  /** Bytes in a megabyte, as stout's `Megabytes` counts them. */
  const Megabyte: nat := 1024 * 1024

  const DefaultMaxSize: nat := 10 * Megabyte

  /** The flags as read from the command line, before validation. */
  datatype LoggerFlags = LoggerFlags(
    destinationType: string,
    journaldLabels: Option<string>,
    logrotateMaxSize: nat,
    logrotateOptions: Option<string>,
    logrotateFilename: Option<string>,
    logrotatePath: string,
    user: Option<string>)

  /** The flags with every default in place and no leading file named. */
  const DefaultFlags: LoggerFlags :=
    LoggerFlags(DefaultDestinationType, None, DefaultMaxSize, None, None, "logrotate", None)

  /** The configuration the logger runs with once every validator has accepted. */
  datatype LoggerConfig = LoggerConfig(
    destination: Destination,
    labels: seq<Label>,
    maxSize: nat,
    options: Option<string>,
    leading: string,
    logrotatePath: string,
    user: Option<string>)

  // ---------------------------------------------------------------------
  // --destination_type

  /** The destination a flag value names, if it names one. */
  function ParseDestination(value: string): (r: Option<Destination>)
    ensures r.Some? <==>
      value == "journald" || value == "logrotate" || value == "journald+logrotate"
    ensures r.Some? ==> DestinationName(r.value) == value
  {
    if value == "journald" then Some(Journald)
    else if value == "logrotate" then Some(Logrotate)
    else if value == "journald+logrotate" then Some(JournaldAndLogrotate)
    else None
  }

  /** Every destination's spelling parses back to that destination. */
  lemma DestinationRoundTrip(d: Destination)
    ensures ParseDestination(DestinationName(d)) == Some(d)
  {
  }

  /** Accepts exactly the three destination spellings. */
  function ValidateDestinationType(value: string): (err: Option<string>)
    ensures err.None? <==>
      value == "journald" || value == "logrotate" || value == "journald+logrotate"
    ensures err.Some? ==> err == Some("Invalid destination type: " + value)
  {
    if ParseDestination(value).Some? then None else Some("Invalid destination type: " + value)
  }

  /** The default destination passes its own validator. */
  lemma DefaultDestinationValid()
    ensures ValidateDestinationType(DefaultDestinationType).None?
    ensures ParseDestination(DefaultDestinationType) == Some(Journald)
  {
  }

  // ---------------------------------------------------------------------
  // --journald_labels

  /**
    The validator's verdict together with the value of `parsed_labels` after
    it ran: the validator assigns `parsed_labels` only on success.
   */
  datatype LabelsVerdict = LabelsVerdict(error: Option<string>, parsedLabels: seq<Label>)

  /**
    Validates `--journald_labels`. `parseJson` stands for the JSON parser and
    `toLabels` for the conversion of a JSON object to the `Labels` protobuf;
    each answers with a value or an error message.
   */
  function ValidateLabels<J>(
    value: Option<string>,
    current: seq<Label>,
    parseJson: string -> Result<J, string>,
    toLabels: J -> Result<seq<Label>, string>): (r: LabelsVerdict)
    ensures value.None? ==> r == LabelsVerdict(None, current)
    ensures r.error.Some? ==> r.parsedLabels == current
    ensures value.Some? && parseJson(value.value).Err? ==>
      r.error == Some("Failed to parse --journald_labels as JSON: " + parseJson(value.value).error)
    ensures value.Some? && parseJson(value.value).Ok? && toLabels(parseJson(value.value).value).Err? ==>
      r.error == Some("Failed to parse --journald_labels as protobuf: "
                      + toLabels(parseJson(value.value).value).error)
    ensures r.error.None? <==>
      value.None? || (parseJson(value.value).Ok? && toLabels(parseJson(value.value).value).Ok?)
    ensures r.error.None? && value.Some? ==>
      r.parsedLabels == toLabels(parseJson(value.value).value).value
  {
    match value
    case None => LabelsVerdict(None, current)
    case Some(text) =>
      match parseJson(text)
      case Err(e) => LabelsVerdict(Some("Failed to parse --journald_labels as JSON: " + e), current)
      case Ok(json) =>
        match toLabels(json)
        case Err(e) => LabelsVerdict(Some("Failed to parse --journald_labels as protobuf: " + e), current)
        case Ok(labels) => LabelsVerdict(None, labels)
  }

  // ---------------------------------------------------------------------
  // --logrotate_max_size

  /** Rejects a maximum size below one memory page of `pageSize` bytes. */
  function ValidateMaxSize(bytes: nat, pageSize: nat): (err: Option<string>)
    ensures err.Some? <==> bytes < pageSize
    ensures err.Some? ==>
      err == Some("Expected --logrotate_max_size of at least " + Decimal(pageSize) + " bytes")
  {
    if bytes < pageSize then
      Some("Expected --logrotate_max_size of at least " + Decimal(pageSize) + " bytes")
    else
      None
  }

  /** The 10 MB default passes whenever a page is at most 10 MB. */
  lemma DefaultMaxSizeValid(pageSize: nat)
    ensures ValidateMaxSize(DefaultMaxSize, pageSize).None? <==> pageSize <= 10 * 1024 * 1024
  {
  }

  // ---------------------------------------------------------------------
  // --logrotate_filename

  /** A POSIX absolute path: one that starts at the root `/`. */
  predicate IsAbsolute(path: string)
  {
    |path| > 0 && path[0] == '/'
  }

  /** The leading file is required, and must be named by an absolute path. */
  function ValidateFilename(value: Option<string>): (err: Option<string>)
    ensures value.None? ==> err == Some("Missing required option --logrotate_filename")
    ensures value.Some? ==> (err.None? <==> IsAbsolute(value.value))
    ensures value.Some? && err.Some? ==>
      err == Some("Expected --logrotate_filename to be an absolute path")
  {
    match value
    case None => Some("Missing required option --logrotate_filename")
    case Some(path) =>
      if IsAbsolute(path) then None else Some("Expected --logrotate_filename to be an absolute path")
  }

  // ---------------------------------------------------------------------
  // All flags together.

  /**
    Runs the validators in the order the flags are declared and builds the
    configuration when all of them accept. The flags start with no parsed
    labels.
   */
  function Validate<J>(
    flags: LoggerFlags,
    pageSize: nat,
    parseJson: string -> Result<J, string>,
    toLabels: J -> Result<seq<Label>, string>): (r: Result<LoggerConfig, string>)
    ensures r.Ok? <==>
      && ValidateDestinationType(flags.destinationType).None?
      && ValidateLabels(flags.journaldLabels, [], parseJson, toLabels).error.None?
      && ValidateMaxSize(flags.logrotateMaxSize, pageSize).None?
      && ValidateFilename(flags.logrotateFilename).None?
    ensures r.Ok? ==>
      && Some(r.value.destination) == ParseDestination(flags.destinationType)
      && r.value.maxSize == flags.logrotateMaxSize >= pageSize
      && Some(r.value.leading) == flags.logrotateFilename
      && IsAbsolute(r.value.leading)
      && r.value.options == flags.logrotateOptions
    ensures r.Ok? ==>
      && r.value.labels == ValidateLabels(flags.journaldLabels, [], parseJson, toLabels).parsedLabels
      && r.value.logrotatePath == flags.logrotatePath
      && r.value.user == flags.user
    ensures r.Ok? && flags.journaldLabels.None? ==> r.value.labels == []
    ensures r.Ok? && flags.journaldLabels.Some? ==>
      r.value.labels == toLabels(parseJson(flags.journaldLabels.value).value).value
    ensures ValidateDestinationType(flags.destinationType).Some? ==>
      r == Err(ValidateDestinationType(flags.destinationType).value)
  {
    var verdict := ValidateLabels(flags.journaldLabels, [], parseJson, toLabels);
    match ParseDestination(flags.destinationType)
    case None => Err(ValidateDestinationType(flags.destinationType).value)
    case Some(destination) =>
      if verdict.error.Some? then Err(verdict.error.value)
      else if ValidateMaxSize(flags.logrotateMaxSize, pageSize).Some? then
        Err(ValidateMaxSize(flags.logrotateMaxSize, pageSize).value)
      else if ValidateFilename(flags.logrotateFilename).Some? then
        Err(ValidateFilename(flags.logrotateFilename).value)
      else
        Ok(LoggerConfig(destination, verdict.parsedLabels, flags.logrotateMaxSize,
                        flags.logrotateOptions, flags.logrotateFilename.value,
                        flags.logrotatePath, flags.user))
  }

  /**
    The defaults alone never validate, because the leading file is required
    even when only journald is written to; naming an absolute leading file
    makes them validate on any machine whose page is at most 10 MB.
   */
  lemma DefaultsNeedLeadingFile<J>(
    pageSize: nat,
    leading: string,
    parseJson: string -> Result<J, string>,
    toLabels: J -> Result<seq<Label>, string>)
    ensures Validate(DefaultFlags, pageSize, parseJson, toLabels).Err?
    ensures IsAbsolute(leading) && pageSize <= DefaultMaxSize ==>
      var r := Validate(DefaultFlags.(logrotateFilename := Some(leading)), pageSize, parseJson, toLabels);
      r.Ok? && r.value.destination == Journald && r.value.labels == []
  {
  }
}

=== FILE: journald_logger.dfy ===
/**
  The logger's main loop, without the actor and I/O machinery: each read of
  standard input goes to journald as one record per complete line and/or to
  the leading log file as the bytes read, with the size accounting that
  decides when `logrotate` runs. At end of stream the unterminated tail, if
  any, becomes the last journald record.
 */
module JournaldLogger {
  import opened Text
  import opened JournaldFlags
  import opened JournaldRecords
  import opened LineSplitter
  import opened Rotation

  /** The byte count of each read; each `char` of a read stands for one byte of input. */
  function Sizes(chunks: seq<string>): seq<nat>
  {
    seq(|chunks|, i requires 0 <= i < |chunks| => |chunks[i]|)
  }

  /** Feeding one more read extends a run of feeds. */
  lemma {:induction false} FeedAllSnoc(sp: Splitter, chunks: seq<string>, c: string)
    ensures var r := FeedAll(sp, chunks);
      FeedAll(sp, chunks + [c]) == Fed(r.lines + Feed(r.next, c).lines, Feed(r.next, c).next)
    decreases |chunks|
  {
    if |chunks| == 0 {
      assert chunks + [c] == [c];
      assert [c][1..] == [];
    } else {
      var first := Feed(sp, chunks[0]);
      assert (chunks + [c])[0] == chunks[0];
      assert (chunks + [c])[1..] == chunks[1..] + [c];
      FeedAllSnoc(first.next, chunks[1..], c);
    }
  }

  /** Feeding the first `i + 1` reads is feeding the first `i`, then read `i`. */
  lemma FeedPrefix(chunks: seq<string>, i: nat)
    requires i < |chunks|
    ensures var r := FeedAll(Empty, chunks[..i]);
      FeedAll(Empty, chunks[..i + 1]) == Fed(r.lines + Feed(r.next, chunks[i]).lines, Feed(r.next, chunks[i]).next)
  {
    assert chunks[..i + 1] == chunks[..i] + [chunks[i]];
    FeedAllSnoc(Empty, chunks[..i], chunks[i]);
  }

  /** The records of the first `i + 1` reads extend those of the first `i` by read `i`'s. */
  lemma RecordsStep(labels: seq<Label>, chunks: seq<string>, i: nat)
    requires i < |chunks|
    ensures var r := FeedAll(Empty, chunks[..i]);
      && FeedAll(Empty, chunks[..i + 1]).next == Feed(r.next, chunks[i]).next
      && Records(labels, FeedAll(Empty, chunks[..i + 1]).lines)
         == Records(labels, r.lines) + Records(labels, Feed(r.next, chunks[i]).lines)
  {
    FeedPrefix(chunks, i);
    var r := FeedAll(Empty, chunks[..i]);
    RecordsAppend(labels, r.lines, Feed(r.next, chunks[i]).lines);
  }

  /**
    The logger's state between reads: the kept tail, and everything the
    sinks have received so far.
   */
  datatype Progress = Progress(
    splitter: Splitter,
    records: seq<seq<Field>>,
    appended: seq<string>,
    rotated: seq<bool>,
    rotation: RotationState)

  /**
    The reads the logger takes in: those before the first zero-byte read,
    which signals the end of input.
   */
  function Received(chunks: seq<string>): (input: seq<string>)
    ensures |input| <= |chunks| && input == chunks[..|input|]
    ensures forall i :: 0 <= i < |input| ==> input[i] != ""
    ensures |input| < |chunks| ==> chunks[|input|] == ""
  {
    if |chunks| == 0 || chunks[0] == "" then []
    else [chunks[0]] + Received(chunks[1..])
  }

  /**
    Handles one read: the kept tail becomes the part `Feed` leaves
    unterminated, journald gets the record, labels first, of each line the
    read completes, and the leading file gets the read itself, with the
    rotation decided by the threshold and the count grown or reset.
   */
  function Deliver(cfg: LoggerConfig, p: Progress, chunk: string): (r: Progress)
    ensures r.splitter == Feed(p.splitter, chunk).next
    ensures Newline !in r.splitter.tail
    ensures cfg.destination.ToJournald() ==>
      && |r.records| == |p.records| + Count(p.splitter.tail + chunk, Newline)
      && r.records[..|p.records|] == p.records
      && r.records[|p.records|..] == Records(cfg.labels, Feed(p.splitter, chunk).lines)
    ensures !cfg.destination.ToJournald() ==> r.records == p.records
    ensures cfg.destination.ToLogrotate() ==>
      && r.appended == p.appended + [chunk]
      && |r.rotated| == |p.rotated| + 1
      && (r.rotated[|p.rotated|] <==> p.rotation.bytesWritten + |chunk| > p.rotation.maxSize)
      && r.rotation.bytesWritten ==
           (if r.rotated[|p.rotated|] then 0 else p.rotation.bytesWritten + |chunk|)
      && r.rotation.maxSize == p.rotation.maxSize
      && Bounded(r.rotation)
    ensures !cfg.destination.ToLogrotate() ==>
      r.appended == p.appended && r.rotated == p.rotated && r.rotation == p.rotation
  {
    var fed := Feed(p.splitter, chunk);
    var records := if cfg.destination.ToJournald() then p.records + Records(cfg.labels, fed.lines) else p.records;
    if cfg.destination.ToLogrotate() then
      var w := Write(p.rotation, |chunk|);
      Progress(fed.next, records, p.appended + [chunk], p.rotated + [w.rotated], w.state)
    else
      Progress(fed.next, records, p.appended, p.rotated, p.rotation)
  }

  /** The journald side of the state after the first `i` reads. */
  ghost predicate JournaldSoFar(cfg: LoggerConfig, chunks: seq<string>, i: nat, p: Progress)
    requires i <= |chunks|
  {
    && p.splitter == FeedAll(Empty, chunks[..i]).next
    && p.records == (if cfg.destination.ToJournald() then Records(cfg.labels, FeedAll(Empty, chunks[..i]).lines) else [])
  }

  /** The leading-file side of the state after the first `i` reads. */
  ghost predicate FileSoFar(cfg: LoggerConfig, chunks: seq<string>, i: nat, p: Progress)
    requires i <= |chunks|
  {
    && p.rotation.maxSize == cfg.maxSize
    && Bounded(p.rotation)
    && (cfg.destination.ToLogrotate() ==>
          && p.appended == chunks[..i]
          && |p.rotated| == i
          && Accounted(0, Sizes(chunks), p.rotated, p.rotation))
    && (!cfg.destination.ToLogrotate() ==> p.appended == [] && p.rotated == [])
  }

  lemma DeliverJournald(cfg: LoggerConfig, chunks: seq<string>, i: nat, p: Progress)
    requires i < |chunks| && JournaldSoFar(cfg, chunks, i, p)
    ensures JournaldSoFar(cfg, chunks, i + 1, Deliver(cfg, p, chunks[i]))
  {
    RecordsStep(cfg.labels, chunks, i);
  }

  lemma DeliverFile(cfg: LoggerConfig, chunks: seq<string>, i: nat, p: Progress)
    requires i < |chunks| && FileSoFar(cfg, chunks, i, p)
    ensures FileSoFar(cfg, chunks, i + 1, Deliver(cfg, p, chunks[i]))
  {
    if cfg.destination.ToLogrotate() {
      var sizes := Sizes(chunks);
      assert sizes[|p.rotated|] == |chunks[i]|;
      AccountedStep(0, sizes, p.rotated, p.rotation);
      assert chunks[..i + 1] == chunks[..i] + [chunks[i]];
    }
  }

  /**
    Runs the logger over the reads `chunks` with the configuration `cfg`,
    up to the end of input. journald receives one record per line of the
    whole input, however it was cut into reads; the leading file receives
    every read, in order; a rotation follows a read exactly when the
    bytes since the previous rotation exceed the maximum size; and no
    partial line is left over at the end.
   */
  method Run(cfg: LoggerConfig, chunks: seq<string>) returns (out: Progress)
    ensures out.splitter == Empty
    ensures out.rotation.maxSize == cfg.maxSize
    ensures var input := Received(chunks);
      cfg.destination.ToJournald() ==>
        out.records == Records(cfg.labels, StreamLines(Concat(input)))
    ensures !cfg.destination.ToJournald() ==> out.records == []
    ensures cfg.destination.ToLogrotate() ==> out.appended == Received(chunks)
    ensures !cfg.destination.ToLogrotate() ==> out.appended == [] && out.rotated == []
    ensures var input := Received(chunks);
      cfg.destination.ToLogrotate() ==>
        && out.rotated == ThresholdFlags(0, cfg.maxSize, Sizes(input))
        && out.rotation.bytesWritten == Pending(0, Sizes(input), out.rotated)
        && Bounded(out.rotation)
  {
    var input := Received(chunks);
    var p := Progress(Empty, [], [], [], RotationState(0, cfg.maxSize));
    for i := 0 to |input|
      invariant JournaldSoFar(cfg, input, i, p)
      invariant FileSoFar(cfg, input, i, p)
      invariant cfg.destination.ToLogrotate() ==> |p.rotated| == i
    {
      DeliverJournald(cfg, input, i, p);
      DeliverFile(cfg, input, i, p);
      p := Deliver(cfg, p, input[i]);
    }
    assert input[..|input|] == input;
    assert Sizes(input)[..|input|] == Sizes(input);
    var records := p.records;
    if cfg.destination.ToJournald() {
      StreamSplitting(input);
      RecordsAppend(cfg.labels, FeedAll(Empty, input).lines, Flush(p.splitter));
      records := records + Records(cfg.labels, Flush(p.splitter));
    }
    out := p.(splitter := Empty, records := records);
  }
}

=== FILE: journald_records.dfy ===
/**
  What the logger hands to journald for one line of input: the label fields,
  keys upper-cased, followed by one `MESSAGE` field holding the line. A label
  whose key upper-cases to `MESSAGE` is sent as a field of that name too.
  Each field travels as one `KEY=value` entry of `sd_journal_sendv`.
 */
module JournaldRecords {
  import opened Results
  import opened Text
  import opened JournaldFlags

  /** One journald field. */
  datatype Field = Field(name: string, value: string)

  /** The field that carries the log line itself. */
  const MessageKey: string := "MESSAGE"

  /** The label fields, in label order, keys upper-cased. */
  function LabelFields(labels: seq<Label>): (fs: seq<Field>)
    ensures |fs| == |labels|
    ensures forall i :: 0 <= i < |fs| ==>
      && IsUpperCase(fs[i].name)
      && EqualIgnoringCase(fs[i].name, labels[i].key)
      && fs[i].value == labels[i].value
  {
    seq(|labels|, i requires 0 <= i < |labels| => Field(Upper(labels[i].key), labels[i].value))
  }

  /**
    The record for one line: one entry more than there are labels, the label
    entries first and the message last, every key upper case.
   */
  function MakeRecord(labels: seq<Label>, line: string): (r: seq<Field>)
    ensures |r| == |labels| + 1
    ensures r[..|labels|] == LabelFields(labels)
    ensures r[|labels|] == Field(MessageKey, line)
    ensures forall i :: 0 <= i < |r| ==> IsUpperCase(r[i].name)
  {
    LabelFields(labels) + [Field(MessageKey, line)]
  }

  /** Normalising the keys of the fields again changes nothing. */
  lemma LabelFieldsNormalised(labels: seq<Label>)
    ensures LabelFields(AsLabels(LabelFields(labels))) == LabelFields(labels)
  {
    var fs := LabelFields(labels);
    forall i | 0 <= i < |labels|
      ensures LabelFields(AsLabels(fs))[i] == fs[i]
    {
      UpperIdempotent(labels[i].key);
    }
  }

  /** Fields read back as labels. */
  function AsLabels(fs: seq<Field>): seq<Label>
  {
    seq(|fs|, i requires 0 <= i < |fs| => Label(fs[i].name, fs[i].value))
  }

  /** The records for consecutive lines, in line order. */
  function Records(labels: seq<Label>, lines: seq<string>): (rs: seq<seq<Field>>)
    ensures |rs| == |lines|
    ensures forall i :: 0 <= i < |lines| ==> rs[i] == MakeRecord(labels, lines[i])
  {
    seq(|lines|, i requires 0 <= i < |lines| => MakeRecord(labels, lines[i]))
  }

  lemma RecordsAppend(labels: seq<Label>, a: seq<string>, b: seq<string>)
    ensures Records(labels, a + b) == Records(labels, a) + Records(labels, b)
  {
  }

  // ---------------------------------------------------------------------
  // The `KEY=value` form of a field.

  function EntryText(f: Field): string
  {
    f.name + "=" + f.value
  }

  /** Reads an entry back: the name runs up to the first `=`. */
  function ParseEntry(text: string): (r: Option<Field>)
    ensures r.Some? <==> '=' in text
  {
    if |text| == 0 then None
    else if text[0] == '=' then Some(Field("", text[1..]))
    else
      match ParseEntry(text[1..])
      case None => None
      case Some(f) => Some(Field([text[0]] + f.name, f.value))
  }

  /**
    An entry reads back as the field it came from, as long as the key has no
    `=` of its own: the name journald sees is the label key, upper-cased.
   */
  lemma {:induction false} EntryRoundTrip(f: Field)
    requires '=' !in f.name
    ensures ParseEntry(EntryText(f)) == Some(f)
    decreases |f.name|
  {
    if |f.name| > 0 {
      var rest := Field(f.name[1..], f.value);
      EntryRoundTrip(rest);
      assert EntryText(f)[1..] == EntryText(rest);
      assert [f.name[0]] + f.name[1..] == f.name;
    } else {
      assert EntryText(f) == "=" + f.value;
    }
  }
}

=== FILE: line_splitter.dfy ===
/**
  Splitting standard input into lines. Reads arrive in arbitrary pieces; the
  splitter keeps the unterminated tail of what it has seen and hands out only
  complete lines, newline removed. At the end of the stream the tail, if any,
  is the last line.
 */
module LineSplitter {
  import opened Text

  const Newline: char := '\n'

  /** The bytes read since the last newline. */
  datatype Splitter = Splitter(tail: string)

  const Empty: Splitter := Splitter("")

  datatype Fed = Fed(lines: seq<string>, next: Splitter)

  /**
    The lines of a whole stream: one per newline, plus the unterminated
    remainder when the stream does not end on a newline.
   */
  function StreamLines(s: string): (lines: seq<string>)
    ensures forall i :: 0 <= i < |lines| ==> Newline !in lines[i]
  {
    var parts := Split(s, Newline);
    SplitPiecesFree(s, Newline);
    if Last(parts) == "" then AllButLast(parts) else parts
  }

  /**
    Takes in one read. The lines handed out are newline-free, and together
    with the new tail they are exactly the old tail followed by the read.
   */
  function Feed(sp: Splitter, chunk: string): (r: Fed)
    ensures forall i :: 0 <= i < |r.lines| ==> Newline !in r.lines[i]
    ensures Newline !in r.next.tail
    ensures |r.lines| == Count(sp.tail + chunk, Newline)
    ensures Join(r.lines + [r.next.tail], Newline) == sp.tail + chunk
  {
    var parts := Split(sp.tail + chunk, Newline);
    JoinSplit(sp.tail + chunk, Newline);
    SplitPiecesFree(sp.tail + chunk, Newline);
    assert parts == AllButLast(parts) + [Last(parts)];
    Fed(AllButLast(parts), Splitter(Last(parts)))
  }

  /** At end of stream: the tail as a last line, or nothing when it is empty. */
  function Flush(sp: Splitter): (lines: seq<string>)
    ensures |lines| <= 1
    ensures lines == [] <==> sp.tail == ""
    ensures lines != [] ==> lines[0] == sp.tail
  {
    if sp.tail == "" then [] else [sp.tail]
  }

  /**
    The lines handed out while feeding reads one after another. None holds
    a newline, and neither does the kept tail.
   */
  function FeedAll(sp: Splitter, chunks: seq<string>): (r: Fed)
    ensures forall i :: 0 <= i < |r.lines| ==> Newline !in r.lines[i]
    ensures Newline !in sp.tail ==> Newline !in r.next.tail
    decreases |chunks|
  {
    if |chunks| == 0 then Fed([], sp)
    else
      var first := Feed(sp, chunks[0]);
      var rest := FeedAll(first.next, chunks[1..]);
      Fed(first.lines + rest.lines, rest.next)
  }

  function Concat(chunks: seq<string>): string
  {
    if |chunks| == 0 then "" else chunks[0] + Concat(chunks[1..])
  }

  /**
    Feeding reads one by one keeps the invariant of the splitter: what was
    handed out, followed by the tail, is the split of everything read.
   */
  lemma {:induction false} FeedAllSplits(sp: Splitter, chunks: seq<string>)
    requires Newline !in sp.tail
    ensures var r := FeedAll(sp, chunks);
      r.lines + [r.next.tail] == Split(sp.tail + Concat(chunks), Newline)
    decreases |chunks|
  {
    if |chunks| == 0 {
      assert sp.tail + "" == sp.tail;
      SplitNoDelimiter(sp.tail, Newline);
    } else {
      var read := sp.tail + chunks[0];
      var first := Feed(sp, chunks[0]);
      var rest := FeedAll(first.next, chunks[1..]);
      FeedAllSplits(first.next, chunks[1..]);
      assert sp.tail + Concat(chunks) == read + Concat(chunks[1..]);
      SplitsCompose(read, Concat(chunks[1..]), rest.lines, rest.next.tail);
    }
  }

  /** The step of `FeedAllSplits`: complete lines of a read, then those of what follows. */
  lemma SplitsCompose(read: string, more: string, lines: seq<string>, tail: string)
    requires lines + [tail] == Split(Last(Split(read, Newline)) + more, Newline)
    ensures AllButLast(Split(read, Newline)) + lines + [tail] == Split(read + more, Newline)
  {
    SplitAppend(read, more, Newline);
  }

  /**
    However the stream is cut into reads, feeding every read and flushing at
    the end yields exactly the lines of the whole stream.
   */
  lemma StreamSplitting(chunks: seq<string>)
    ensures var r := FeedAll(Empty, chunks);
      r.lines + Flush(r.next) == StreamLines(Concat(chunks))
  {
    FeedAllSplits(Empty, chunks);
    assert "" + Concat(chunks) == Concat(chunks);
    var r := FeedAll(Empty, chunks);
    var parts := Split(Concat(chunks), Newline);
    assert AllButLast(parts) == r.lines;
  }

  /** Two ways of cutting the same stream into reads give the same lines. */
  lemma PartitionIndependent(a: seq<string>, b: seq<string>)
    requires Concat(a) == Concat(b)
    ensures FeedAll(Empty, a).lines + Flush(FeedAll(Empty, a).next)
         == FeedAll(Empty, b).lines + Flush(FeedAll(Empty, b).next)
  {
    StreamSplitting(a);
    StreamSplitting(b);
  }

  /** A stream ending in a newline leaves nothing to flush; any other non-empty one does. */
  lemma FlushAtEnd(chunks: seq<string>)
    ensures var s := Concat(chunks);
      Flush(FeedAll(Empty, chunks).next) == [] <==> (s == "" || s[|s| - 1] == Newline)
  {
    var s := Concat(chunks);
    FeedAllSplits(Empty, chunks);
    assert "" + s == s;
    if s != "" {
      var x, c := s[..|s| - 1], s[|s| - 1];
      assert s == x + [c];
      if c == Newline {
        SplitEndsOnDelimiter(x, Newline);
      } else {
        SplitEndsOnOther(x, c, Newline);
      }
    }
  }
}

=== FILE: logrotate_conf.dfy ===
/**
  The two companion files `logrotate` works with, named after the leading
  log file, and the configuration stanza written into the first of them.
 */
module LogrotateConf {
  import opened Results
  import opened Text
  import JournaldFlags

  const ConfSuffix: string := ".logrotate.conf"
  const StateSuffix: string := ".logrotate.state"

  /** The configuration file handed to `logrotate`. */
  function ConfPath(leading: string): (p: string)
    ensures |p| == |leading| + |ConfSuffix|
    ensures p[..|leading|] == leading && p[|leading|..] == ConfSuffix
  {
    leading + ConfSuffix
  }

  /** The state file `logrotate` keeps between invocations. */
  function StatePath(leading: string): (p: string)
    ensures |p| == |leading| + |StateSuffix|
    ensures p[..|leading|] == leading && p[|leading|..] == StateSuffix
  {
    leading + StateSuffix
  }

  /**
    The leading file and its two companions are three different files, and
    different leading files get different companions. The configuration file
    of one leading file is never the state file of another, since the two
    suffixes end in different letters.
   */
  lemma CompanionPathsDistinct(leading: string, other: string)
    ensures ConfPath(leading) != leading
    ensures StatePath(leading) != leading
    ensures ConfPath(leading) != StatePath(other)
    ensures ConfPath(leading) == ConfPath(other) ==> leading == other
    ensures StatePath(leading) == StatePath(other) ==> leading == other
  {
    var c, s := ConfPath(leading), StatePath(other);
    assert c[|c| - 1] == 'f';
    assert s[|s| - 1] == 'e';
    if ConfPath(leading) == ConfPath(other) {
      assert leading == ConfPath(leading)[..|leading|];
    }
    if StatePath(leading) == StatePath(other) {
      assert leading == StatePath(leading)[..|leading|];
    }
  }

  /** The companions of an absolute leading file are absolute too. */
  lemma CompanionPathsAbsolute(leading: string)
    requires JournaldFlags.IsAbsolute(leading)
    ensures JournaldFlags.IsAbsolute(ConfPath(leading))
    ensures JournaldFlags.IsAbsolute(StatePath(leading))
  {
  }

  // ---------------------------------------------------------------------
  // The configuration stanza.

  /** The user's extra options, or nothing when none were given. */
  function OptionsText(options: Option<string>): string
  {
    match options
    case None => ""
    case Some(text) => text
  }

  /** The line that fixes the rotation size. */
  function SizeLine(maxSize: nat): string
  {
    "size " + Decimal(maxSize)
  }

  /**
    The stanza for the leading file: the user's options verbatim, then the
    `size` directive, then the closing brace.
   */
  function ConfText(leading: string, options: Option<string>, maxSize: nat): (text: string)
    ensures |text| >= |leading| + 2 && text[..|leading| + 2] == leading + " {"
    ensures var last := SizeLine(maxSize) + "\n}";
      |text| >= |last| && text[|text| - |last|..] == last
  {
    leading + " {\n" + OptionsText(options) + "\n" + SizeLine(maxSize) + "\n}"
  }

  predicate IsBlank(c: char) { c == ' ' || c == '\t' }

  function TrimLeft(s: string): (r: string)
    ensures |r| == 0 || !IsBlank(r[0])
  {
    if |s| > 0 && IsBlank(s[0]) then TrimLeft(s[1..]) else s
  }

  /** The argument of a `size` directive, if `line` is one. */
  function SizeArgument(line: string): Option<string>
  {
    var t := TrimLeft(line);
    if |t| >= 5 && t[..5] == "size " then Some(TrimLeft(t[5..])) else None
  }

  /**
    The size `logrotate` ends up using: a later directive overrides an earlier
    one, so the last `size` line decides.
   */
  function EffectiveSize(lines: seq<string>): Option<string>
  {
    if |lines| == 0 then None
    else if SizeArgument(Last(lines)).Some? then SizeArgument(Last(lines))
    else EffectiveSize(AllButLast(lines))
  }

  /**
    The stanza's lines are the header line(s), then the user's option lines,
    then the `size` line, then the closing brace.
   */
  lemma ConfLines(leading: string, options: Option<string>, maxSize: nat)
    ensures Split(ConfText(leading, options, maxSize), '\n') ==
      Split(leading + " {", '\n') + Split(OptionsText(options), '\n') + [SizeLine(maxSize), "}"]
  {
    var head, opts, size := leading + " {", OptionsText(options), SizeLine(maxSize);
    var closing := size + "\n}";
    var body := opts + "\n" + closing;
    assert ConfText(leading, options, maxSize) == head + "\n" + body;
    ClosingLines(maxSize);
    SplitAtDelimiter(opts, closing, '\n');
    SplitAtDelimiter(head, body, '\n');
  }

  /** The last two lines of the stanza: the `size` line and the closing brace. */
  lemma ClosingLines(maxSize: nat)
    ensures Split(SizeLine(maxSize) + "\n}", '\n') == [SizeLine(maxSize), "}"]
  {
    var size := SizeLine(maxSize);
    DecimalHasNo(maxSize, '\n');
    assert size == "size " + Decimal(maxSize);
    assert '\n' !in size;
    SplitNoDelimiter(size, '\n');
    SplitNoDelimiter("}", '\n');
    SplitAtDelimiter(size, "}", '\n');
    assert size + "\n}" == size + ['\n'] + "}";
  }

  /**
    Whatever `size` directives the user's options contain, the stanza's own
    `size` line comes last, so `logrotate` rotates at exactly `maxSize` bytes.
   */
  lemma {:induction false} ComputedSizeWins(leading: string, options: Option<string>, maxSize: nat)
    ensures EffectiveSize(Split(ConfText(leading, options, maxSize), '\n')) == Some(Decimal(maxSize))
    ensures ParseDecimal(EffectiveSize(Split(ConfText(leading, options, maxSize), '\n')).value) == Some(maxSize)
  {
    ConfLines(leading, options, maxSize);
    var prefix := Split(leading + " {", '\n') + Split(OptionsText(options), '\n');
    var lines := prefix + [SizeLine(maxSize), "}"];
    assert Last(lines) == "}";
    assert SizeArgument("}").None?;
    assert AllButLast(lines) == prefix + [SizeLine(maxSize)];
    var digits := Decimal(maxSize);
    assert SizeLine(maxSize)[..5] == "size ";
    assert SizeLine(maxSize)[5..] == digits;
    assert TrimLeft(digits) == digits;
    assert SizeArgument(SizeLine(maxSize)) == Some(digits);
    ParseDecimalRoundTrip(maxSize);
  }
}

=== FILE: metrics_isolator.dfy ===
/**
  The metrics isolator's configuration: the module parameters become a
  key/value map, and the isolator process is constructed from four optional
  flags (scheme, network, address, endpoint). Construction either yields the
  service configuration or stops the agent with a fatal error; the source's
  `ASSERT`s and `LOG(FATAL)`s are both such stops.

  Parsing an IP address and creating a unix socket address are foreign calls
  and enter as the parameters `parseIp` and `createUnix`.
 */
module MetricsIsolator {
  import opened Results
  import opened Text

  /** A TCP/UDP port: what fits in a `uint16_t`. */
  type Port = n: nat | n <= 65535

  /** The port a string names, if it is a decimal number that fits in 16 bits. */
  function ParsePort(s: string): (r: Option<Port>)
    ensures r.Some? <==> ParseDecimal(s).Some? && ParseDecimal(s).value <= 65535
    ensures r.Some? ==> r.value == ParseDecimal(s).value
  {
    match ParseDecimal(s)
    case Some(n) => if n <= 65535 then Some(n) else None
    case None => None
  }

  /** Every port reads back from its decimal rendering. */
  lemma PortRoundTrip(p: Port)
    ensures ParsePort(Decimal(p)) == Some(p)
  {
    ParseDecimalRoundTrip(p);
  }

  /** The flags the isolator is constructed from. */
  datatype IsolatorFlags = IsolatorFlags(
    serviceScheme: Option<string>,
    serviceNetwork: Option<string>,
    serviceAddress: Option<string>,
    serviceEndpoint: Option<string>)

  datatype InetAddress<IP> = InetAddress(ip: IP, port: Port)

  /** What the constructed isolator process remembers about the metrics service. */
  datatype ServiceConfig<IP, UnixAddress> = ServiceConfig(
    scheme: string,
    endpoint: string,
    inetAddress: Option<InetAddress<IP>>,
    unixAddress: Option<UnixAddress>)

  /** Why construction stopped the agent. */
  datatype Fatal =
    | MissingScheme
    | InvalidScheme(scheme: string)
    | MissingAddress
    | MissingNetwork
    | InvalidNetwork(network: string)
    | NotHostPort(address: string)
    | InvalidIp(host: string)
    | InvalidPort(port: string)
    | InvalidUnixAddress(address: string)
    | MissingEndpoint

  /** Position of the first `c` in `s`, or `|s|` when there is none. */
  function IndexOf(s: string, c: char): (k: nat)
    ensures k <= |s|
    ensures forall j :: 0 <= j < k ==> s[j] != c
    ensures k < |s| ==> s[k] == c
    ensures k == |s| ==> Count(s, c) == 0
  {
    if |s| == 0 then 0 else if s[0] == c then 0 else 1 + IndexOf(s[1..], c)
  }

  /** The part of an inet address before its first `:`. */
  function HostPart(address: string): string
  {
    address[..IndexOf(address, ':')]
  }

  /** The part of an inet address after its first `:`, empty when there is none. */
  function PortPart(address: string): string
  {
    var k := IndexOf(address, ':');
    if k < |address| then address[k + 1..] else ""
  }

  /** With exactly one `:`, splitting gives the parts before and after it. */
  lemma SplitSingleColon(s: string)
    requires Count(s, ':') == 1
    ensures Split(s, ':') == [HostPart(s), PortPart(s)]
  {
    var k := IndexOf(s, ':');
    var before, after := s[..k], s[k + 1..];
    assert s == before + [':'] + after;
    CountZero(before, ':');
    ColonCounts(before, after);
    CountZero(after, ':');
    SplitNoDelimiter(before, ':');
    SplitNoDelimiter(after, ':');
    SplitAtDelimiter(before, after, ':');
  }

  lemma ColonCounts(before: string, after: string)
    ensures Count(before + [':'] + after, ':') == Count(before, ':') + 1 + Count(after, ':')
  {
    CountAppend(before, [':'] + after, ':');
    assert before + [':'] + after == before + ([':'] + after);
    assert ([':'] + after)[1..] == after;
  }

  /**
    The inet address recorded for a `host:port` string, or the reason it is
    rejected: it must split on `:` into exactly two fields, the host must
    parse as an IP and the port as a `uint16_t`, in that order.
   */
  function InetFromAddress<IP>(address: string, parseIp: string -> Option<IP>): (r: Result<InetAddress<IP>, Fatal>)
    ensures r.Ok? <==>
      && Count(address, ':') == 1
      && parseIp(HostPart(address)).Some?
      && ParsePort(PortPart(address)).Some?
    ensures r.Ok? ==>
      && Some(r.value.ip) == parseIp(HostPart(address))
      && Some(r.value.port) == ParsePort(PortPart(address))
    ensures Count(address, ':') != 1 ==> r == Err(NotHostPort(address))
  {
    var hostport := Split(address, ':');
    if |hostport| != 2 then Err(NotHostPort(address))
    else
      SplitSingleColon(address);
      match parseIp(hostport[0])
      case None => Err(InvalidIp(hostport[0]))
      case Some(ip) =>
        match ParsePort(hostport[1])
        case None => Err(InvalidPort(hostport[1]))
        case Some(port) => Ok(InetAddress(ip, port))
  }

  /**
    A host without `:` followed by `:` and a rendered port is read back as
    that host's IP and that port.
   */
  lemma InetAddressRoundTrip<IP>(host: string, port: Port, parseIp: string -> Option<IP>)
    requires ':' !in host
    requires parseIp(host).Some?
    ensures InetFromAddress(host + ":" + Decimal(port), parseIp) == Ok(InetAddress(parseIp(host).value, port))
  {
    var digits := Decimal(port);
    var address := host + [':'] + digits;
    assert host + ":" + digits == address;
    DecimalHasNo(port, ':');
    CountZero(host, ':');
    CountZero(digits, ':');
    ColonCounts(host, digits);
    var k := IndexOf(address, ':');
    assert address[|host|] == ':';
    assert k == |host|;
    assert HostPart(address) == host;
    assert PortPart(address) == digits;
    PortRoundTrip(port);
  }

  /**
    Every configuration the constructor accepts, stated without its order of
    checks.
   */
  predicate Acceptable<IP, U>(flags: IsolatorFlags, parseIp: string -> Option<IP>, createUnix: string -> Option<U>)
  {
    && flags.serviceScheme.Some?
    && (flags.serviceScheme.value == "http" || flags.serviceScheme.value == "https")
    && flags.serviceAddress.Some?
    && flags.serviceNetwork.Some?
    && (flags.serviceNetwork.value == "inet" || flags.serviceNetwork.value == "unix")
    && (flags.serviceNetwork.value == "inet" ==>
          var a := flags.serviceAddress.value;
          && Count(a, ':') == 1
          && parseIp(HostPart(a)).Some?
          && ParsePort(PortPart(a)).Some?)
    && (flags.serviceNetwork.value == "unix" ==> createUnix(flags.serviceAddress.value).Some?)
    && flags.serviceEndpoint.Some?
  }

  /**
    Constructs the isolator's service configuration. It succeeds exactly on
    the acceptable flags; the scheme and endpoint are kept verbatim and
    exactly one of the two addresses is set, the one the network names.
   */
  function NewIsolator<IP, U>(flags: IsolatorFlags, parseIp: string -> Option<IP>, createUnix: string -> Option<U>)
    : (r: Result<ServiceConfig<IP, U>, Fatal>)
    ensures r.Ok? <==> Acceptable(flags, parseIp, createUnix)
    ensures r.Ok? ==>
      && flags.serviceScheme == Some(r.value.scheme)
      && (r.value.scheme == "http" || r.value.scheme == "https")
      && flags.serviceEndpoint == Some(r.value.endpoint)
      && (r.value.inetAddress.Some? <==> flags.serviceNetwork == Some("inet"))
      && (r.value.unixAddress.Some? <==> flags.serviceNetwork == Some("unix"))
      && (r.value.inetAddress.Some? != r.value.unixAddress.Some?)
    ensures r.Ok? && r.value.inetAddress.Some? ==>
      var a := flags.serviceAddress.value;
      && Count(a, ':') == 1
      && Some(r.value.inetAddress.value.ip) == parseIp(HostPart(a))
      && Some(r.value.inetAddress.value.port) == ParsePort(PortPart(a))
    ensures r.Ok? && r.value.unixAddress.Some? ==>
      Some(r.value.unixAddress.value) == createUnix(flags.serviceAddress.value)
    ensures flags.serviceScheme.None? ==> r == Err(MissingScheme)
    ensures flags.serviceScheme.Some? && flags.serviceScheme.value != "http" && flags.serviceScheme.value != "https" ==>
      r == Err(InvalidScheme(flags.serviceScheme.value))
  {
    if flags.serviceScheme.None? then Err(MissingScheme)
    else if flags.serviceScheme.value != "http" && flags.serviceScheme.value != "https" then
      Err(InvalidScheme(flags.serviceScheme.value))
    else if flags.serviceAddress.None? then Err(MissingAddress)
    else if flags.serviceNetwork.None? then Err(MissingNetwork)
    else if flags.serviceNetwork.value != "inet" && flags.serviceNetwork.value != "unix" then
      Err(InvalidNetwork(flags.serviceNetwork.value))
    else
      var scheme, network, address := flags.serviceScheme.value, flags.serviceNetwork.value, flags.serviceAddress.value;
      var inet: Result<Option<InetAddress<IP>>, Fatal> :=
        if network == "inet" then
          match InetFromAddress(address, parseIp)
          case Ok(a) => Ok(Some(a))
          case Err(e) => Err(e)
        else Ok(None);
      match inet
      case Err(e) => Err(e)
      case Ok(inetAddress) =>
        var unix: Result<Option<U>, Fatal> :=
          if network == "unix" then
            match createUnix(address)
            case Some(u) => Ok(Some(u))
            case None => Err(InvalidUnixAddress(address))
          else Ok(None);
        match unix
        case Err(e) => Err(e)
        case Ok(unixAddress) =>
          if flags.serviceEndpoint.None? then Err(MissingEndpoint)
          else Ok(ServiceConfig(scheme, flags.serviceEndpoint.value, inetAddress, unixAddress))
  }

  // ---------------------------------------------------------------------
  // Module parameters.

  datatype Parameter = Parameter(key: string, value: string)

  /** The value of the last parameter with key `k`, if there is one. */
  function LastValue(params: seq<Parameter>, k: string): (r: Option<string>)
    ensures r.Some? <==> exists i :: 0 <= i < |params| && params[i].key == k
  {
    if |params| == 0 then None
    else if Last(params).key == k then Some(Last(params).value)
    else
      var init := AllButLast(params);
      assert forall i :: 0 <= i < |init| ==> init[i] == params[i];
      LastValue(init, k)
  }

  /** The value chosen for a key belongs to a parameter with that key that no later one overrides. */
  lemma {:induction false} LastValueIsLast(params: seq<Parameter>, k: string) returns (i: nat)
    requires LastValue(params, k).Some?
    ensures i < |params| && params[i] == Parameter(k, LastValue(params, k).value)
    ensures forall j :: i < j < |params| ==> params[j].key != k
  {
    var n := |params|;
    if params[n - 1].key == k {
      i := n - 1;
    } else {
      var init := AllButLast(params);
      assert LastValue(params, k) == LastValue(init, k);
      i := LastValueIsLast(init, k);
      assert params[i] == init[i];
    }
  }

  /**
    Turns the parameter list into a map. Each key looks up the value of the
    last parameter with that key, so by `LastValue`'s contract the map's keys
    are exactly the keys of the parameters.
   */
  method ParametersToMap(params: seq<Parameter>) returns (values: map<string, string>)
    ensures forall k :: Lookup(values, k) == LastValue(params, k)
  {
    values := map[];
    for i := 0 to |params|
      invariant forall k :: Lookup(values, k) == LastValue(params[..i], k)
    {
      assert AllButLast(params[..i + 1]) == params[..i];
      values := values[params[i].key := params[i].value];
    }
    assert params[..|params|] == params;
  }
}

=== FILE: results.dfy ===
/**
  Failure-carrying values shared by the journald logger and the metrics
  isolator models: `Option` for stout's `Option<T>` and `Result` for a value
  or the error that stopped its construction.
 */
module Results {

  datatype Option<+T> = None | Some(value: T)

  datatype Result<+T, +E> = Ok(value: T) | Err(error: E)

  /** The value held in a map under `k`, if any. */
  function Lookup<K, V>(m: map<K, V>, k: K): Option<V>
  {
    if k in m then Some(m[k]) else None
  }
}

=== FILE: rotation.dfy ===
/**
  Size accounting for the leading log file. Every write adds its byte count
  to `bytesWritten`; once that count exceeds the maximum size the leading
  file is rotated, which resets the count to zero.
 */
module Rotation {

  datatype RotationState = RotationState(bytesWritten: nat, maxSize: nat)

  /** Between writes the leading file never holds more than the maximum. */
  predicate Bounded(s: RotationState)
  {
    s.bytesWritten <= s.maxSize
  }

  /** The state after `logrotate` has run on the leading file. */
  function Rotate(s: RotationState): (r: RotationState)
    ensures r.bytesWritten == 0
    ensures r.maxSize == s.maxSize
    ensures Bounded(r)
  {
    s.(bytesWritten := 0)
  }

  datatype WriteOutcome = WriteOutcome(state: RotationState, rotated: bool)

  /**
    Accounts for `n` bytes written to the leading file. Rotation happens
    exactly when the count would exceed the maximum, and afterwards the state
    is within bounds whatever it was before.
   */
  function Write(s: RotationState, n: nat): (r: WriteOutcome)
    ensures r.rotated <==> s.bytesWritten + n > s.maxSize
    ensures r.rotated ==> r.state.bytesWritten == 0
    ensures !r.rotated ==> r.state.bytesWritten == s.bytesWritten + n
    ensures r.state.maxSize == s.maxSize
    ensures Bounded(r.state)
  {
    var grown := s.(bytesWritten := s.bytesWritten + n);
    if grown.bytesWritten > grown.maxSize then WriteOutcome(Rotate(grown), true)
    else WriteOutcome(grown, false)
  }

  // ---------------------------------------------------------------------
  // A run of writes, described without replaying `Write`.

  function Sum(xs: seq<nat>): nat
  {
    if |xs| == 0 then 0 else Sum(xs[..|xs| - 1]) + xs[|xs| - 1]
  }

  /** The index of the first write after the last rotation among `flags`. */
  function SegmentStart(flags: seq<bool>): (k: nat)
    ensures k <= |flags|
  {
    if |flags| == 0 then 0
    else if flags[|flags| - 1] then |flags|
    else SegmentStart(flags[..|flags| - 1])
  }

  /**
    Bytes counted since the last rotation, after the writes whose sizes
    begin `sizes` and whose rotation flags are `flags`: those since the
    last rotation, plus what the file held at the start if there was none.
   */
  function Pending(initial: nat, sizes: seq<nat>, flags: seq<bool>): nat
    requires |flags| <= |sizes|
  {
    var k := SegmentStart(flags);
    (if k == 0 then initial else 0) + Sum(sizes[k..|flags|])
  }

  lemma PendingStep(initial: nat, sizes: seq<nat>, flags: seq<bool>, rotated: bool)
    requires |flags| < |sizes|
    ensures Pending(initial, sizes, flags + [rotated]) ==
      if rotated then 0 else Pending(initial, sizes, flags) + sizes[|flags|]
  {
    var extended := flags + [rotated];
    assert extended[..|flags|] == flags;
    if !rotated {
      var k := SegmentStart(flags);
      assert sizes[k..|flags| + 1][..|flags| - k] == sizes[k..|flags|];
    }
  }

  /** Pending bytes depend only on the sizes of the writes already made. */
  lemma PendingPrefix(initial: nat, sizes: seq<nat>, flags: seq<bool>, n: nat)
    requires |flags| <= n <= |sizes|
    ensures Pending(initial, sizes[..n], flags) == Pending(initial, sizes, flags)
  {
    var k := SegmentStart(flags);
    assert sizes[..n][k..|flags|] == sizes[k..|flags|];
  }

  /**
    The threshold rule as a reference: the rotation flags of writes of
    `sizes`, when `initial` bytes are pending at the start. Each write
    rotates exactly when the bytes pending before it plus its own size
    exceed `maxSize`.
   */
  function ThresholdFlags(initial: nat, maxSize: nat, sizes: seq<nat>): (flags: seq<bool>)
    ensures |flags| == |sizes|
    decreases |sizes|
  {
    if |sizes| == 0 then []
    else
      var n := |sizes| - 1;
      var before := ThresholdFlags(initial, maxSize, sizes[..n]);
      before + [Pending(initial, sizes, before) + sizes[n] > maxSize]
  }

  /** The flags of a prefix of the writes are a prefix of the flags. */
  lemma {:induction false} ThresholdFlagsPrefix(initial: nat, maxSize: nat, sizes: seq<nat>, n: nat)
    requires n <= |sizes|
    ensures ThresholdFlags(initial, maxSize, sizes[..n]) == ThresholdFlags(initial, maxSize, sizes)[..n]
    decreases |sizes|
  {
    if n < |sizes| {
      var m := |sizes| - 1;
      ThresholdFlagsPrefix(initial, maxSize, sizes[..m], n);
      assert sizes[..m][..n] == sizes[..n];
      var flags := ThresholdFlags(initial, maxSize, sizes);
      assert flags[..m] == ThresholdFlags(initial, maxSize, sizes[..m]);
      assert flags[..m][..n] == flags[..n];
    } else {
      assert sizes[..n] == sizes;
    }
  }

  /**
    Every write in the reference obeys the threshold rule, judged against
    the flags of the writes before it.
   */
  lemma ThresholdFlagsAt(initial: nat, maxSize: nat, sizes: seq<nat>, j: nat)
    requires j < |sizes|
    ensures var flags := ThresholdFlags(initial, maxSize, sizes);
      flags[j] <==> Pending(initial, sizes, flags[..j]) + sizes[j] > maxSize
  {
    var flags := ThresholdFlags(initial, maxSize, sizes);
    ThresholdFlagsPrefix(initial, maxSize, sizes, j + 1);
    ThresholdFlagsPrefix(initial, maxSize, sizes, j);
    var upTo := sizes[..j + 1];
    assert upTo[..j] == sizes[..j];
    assert flags[..j + 1] == flags[..j] + [flags[j]];
    PendingPrefix(initial, sizes, flags[..j], j + 1);
  }

  /** One more write that obeys the threshold rule extends the reference flags. */
  lemma ThresholdStep(initial: nat, maxSize: nat, sizes: seq<nat>, flags: seq<bool>, rotated: bool)
    requires |flags| < |sizes|
    requires flags == ThresholdFlags(initial, maxSize, sizes[..|flags|])
    requires rotated <==> Pending(initial, sizes, flags) + sizes[|flags|] > maxSize
    ensures flags + [rotated] == ThresholdFlags(initial, maxSize, sizes[..|flags| + 1])
  {
    var n := |flags|;
    var upTo := sizes[..n + 1];
    assert upTo[..n] == sizes[..n];
    PendingPrefix(initial, sizes, flags, n + 1);
  }

  /**
    The state `s` is what the writes with rotation flags `flags` leave
    behind: the flags are the reference flags of those writes, and the count
    is the bytes pending.
   */
  ghost predicate Accounted(initial: nat, sizes: seq<nat>, flags: seq<bool>, s: RotationState)
  {
    && |flags| <= |sizes|
    && flags == ThresholdFlags(initial, s.maxSize, sizes[..|flags|])
    && s.bytesWritten == Pending(initial, sizes, flags)
  }

  /** `Write` keeps the accounting exact and the count within bounds. */
  lemma AccountedStep(initial: nat, sizes: seq<nat>, flags: seq<bool>, s: RotationState)
    requires |flags| < |sizes| && Accounted(initial, sizes, flags, s)
    ensures var w := Write(s, sizes[|flags|]);
      && Accounted(initial, sizes, flags + [w.rotated], w.state)
      && Bounded(w.state)
  {
    var w := Write(s, sizes[|flags|]);
    ThresholdStep(initial, s.maxSize, sizes, flags, w.rotated);
    PendingStep(initial, sizes, flags, w.rotated);
  }

  /**
    Applies a run of writes. The rotations are those of the threshold rule,
    and the final count is what was written since the last rotation.
   */
  method WriteAll(s: RotationState, sizes: seq<nat>) returns (final: RotationState, rotated: seq<bool>)
    ensures rotated == ThresholdFlags(s.bytesWritten, s.maxSize, sizes)
    ensures final.maxSize == s.maxSize
    ensures final.bytesWritten == Pending(s.bytesWritten, sizes, rotated)
    ensures |sizes| > 0 ==> Bounded(final)
  {
    final, rotated := s, [];
    for i := 0 to |sizes|
      invariant |rotated| == i
      invariant final.maxSize == s.maxSize
      invariant Accounted(s.bytesWritten, sizes, rotated, final)
      invariant i > 0 ==> Bounded(final)
    {
      var out := Write(final, sizes[i]);
      AccountedStep(s.bytesWritten, sizes, rotated, final);
      rotated := rotated + [out.rotated];
      final := out.state;
    }
    assert sizes[..|sizes|] == sizes;
  }

  /** With no rotation among the flags, the segment since the last rotation starts at the first write. */
  lemma {:induction false} SegmentStartNoRotation(n: nat)
    ensures SegmentStart(seq(n, j => false)) == 0
  {
    if n > 0 {
      var flags := seq(n, j => false);
      assert flags[..n - 1] == seq(n - 1, j => false);
      SegmentStartNoRotation(n - 1);
    }
  }

  /**
    Writes whose sizes, together with the bytes pending at the start, stay
    within the maximum never rotate, and all their bytes remain pending.
   */
  lemma {:induction false} NoRotationBelowThreshold(initial: nat, maxSize: nat, sizes: seq<nat>)
    requires initial + Sum(sizes) <= maxSize
    ensures ThresholdFlags(initial, maxSize, sizes) == seq(|sizes|, j => false)
    ensures Pending(initial, sizes, ThresholdFlags(initial, maxSize, sizes)) == initial + Sum(sizes)
    decreases |sizes|
  {
    var flags := seq(|sizes|, j => false);
    SegmentStartNoRotation(|sizes|);
    if |sizes| > 0 {
      var n := |sizes| - 1;
      var before := sizes[..n];
      NoRotationBelowThreshold(initial, maxSize, before);
      PendingPrefix(initial, sizes, seq(n, j => false), n);
      assert flags == seq(n, j => false) + [false];
      assert sizes[0..n] == before;
    }
    assert sizes[0..|sizes|] == sizes;
  }
}

=== FILE: text.dfy ===
/**
  String primitives the source takes from stout: splitting on a delimiter
  (`strings::split` with a single-character delimiter), ASCII upper-casing of
  label keys, and decimal rendering (`stringify`) and parsing (`numify`) of
  natural numbers.
 */
module Text {
  import opened Results

  /** Number of occurrences of `d` in `s`. */
  function Count(s: string, d: char): nat
  {
    if |s| == 0 then 0 else (if s[0] == d then 1 else 0) + Count(s[1..], d)
  }

  lemma {:induction false} CountZero(s: string, d: char)
    ensures Count(s, d) == 0 <==> d !in s
  {
    if |s| > 0 {
      CountZero(s[1..], d);
      assert s == [s[0]] + s[1..];
    }
  }

  lemma {:induction false} CountAppend(a: string, b: string, d: char)
    ensures Count(a + b, d) == Count(a, d) + Count(b, d)
  {
    if |a| > 0 {
      assert (a + b)[1..] == a[1..] + b;
      CountAppend(a[1..], b, d);
    } else {
      assert a + b == b;
    }
  }

  /**
    The pieces of `s` between occurrences of `d`, empty pieces included:
    there is always one more piece than there are delimiters.
   */
  function Split(s: string, d: char): (parts: seq<string>)
    ensures |parts| == Count(s, d) + 1
  {
    if |s| == 0 then [""]
    else
      var rest := Split(s[1..], d);
      if s[0] == d then [""] + rest
      else [[s[0]] + rest[0]] + rest[1..]
  }

  /** No piece holds the delimiter. */
  lemma {:induction false} SplitPiecesFree(s: string, d: char)
    ensures forall i :: 0 <= i < |Split(s, d)| ==> d !in Split(s, d)[i]
  {
    if |s| > 0 {
      SplitPiecesFree(s[1..], d);
      SplitCons(s[0], s[1..], d);
      assert s == [s[0]] + s[1..];
    }
  }

  /** The pieces glued back together with `d` between neighbours. */
  function Join(parts: seq<string>, d: char): string
    requires |parts| >= 1
  {
    if |parts| == 1 then parts[0] else parts[0] + [d] + Join(parts[1..], d)
  }

  function AllButLast<T>(xs: seq<T>): seq<T>
    requires |xs| >= 1
  {
    xs[..|xs| - 1]
  }

  function Last<T>(xs: seq<T>): T
    requires |xs| >= 1
  {
    xs[|xs| - 1]
  }

  /** Splitting loses and invents nothing: joining the pieces gives `s` back. */
  lemma {:induction false} JoinSplit(s: string, d: char)
    ensures Join(Split(s, d), d) == s
  {
    if |s| > 0 {
      var rest := Split(s[1..], d);
      JoinSplit(s[1..], d);
      if s[0] == d {
        assert ([""] + rest)[1..] == rest;
      } else if |rest| > 1 {
        var parts := [[s[0]] + rest[0]] + rest[1..];
        assert parts[1..] == rest[1..];
        assert Join(rest, d) == rest[0] + [d] + Join(rest[1..], d);
      }
      assert s == [s[0]] + s[1..];
    }
  }

  /** A piece without the delimiter glues onto the first piece of what follows. */
  lemma {:induction false} SplitNoDelimiterPrefix(p: string, y: string, d: char)
    requires d !in p
    ensures Split(p + y, d) == [p + Split(y, d)[0]] + Split(y, d)[1..]
  {
    if |p| > 0 {
      assert (p + y)[1..] == p[1..] + y;
      SplitNoDelimiterPrefix(p[1..], y, d);
      assert [p[0]] + (p[1..] + Split(y, d)[0]) == p + Split(y, d)[0];
    } else {
      var sy := Split(y, d);
      assert p + y == y;
      assert p + sy[0] == sy[0];
      assert [sy[0]] + sy[1..] == sy;
    }
  }

  /** A string without the delimiter is its own single piece. */
  lemma SplitNoDelimiter(p: string, d: char)
    requires d !in p
    ensures Split(p, d) == [p]
  {
    SplitNoDelimiterPrefix(p, "", d);
    assert p + "" == p;
  }

  /** Pieces without the delimiter survive a join followed by a split. */
  lemma {:induction false} SplitJoin(parts: seq<string>, d: char)
    requires |parts| >= 1
    requires forall i :: 0 <= i < |parts| ==> d !in parts[i]
    ensures Split(Join(parts, d), d) == parts
  {
    if |parts| == 1 {
      SplitNoDelimiter(parts[0], d);
    } else {
      var rest := parts[1..];
      SplitJoin(rest, d);
      var tail := [d] + Join(rest, d);
      assert Split(tail, d) == [""] + rest by {
        SplitCons(d, Join(rest, d), d);
      }
      assert parts[0] + [d] + Join(rest, d) == parts[0] + tail;
      SplitNoDelimiterPrefix(parts[0], tail, d);
      assert parts[0] + "" == parts[0];
      assert parts == [parts[0]] + rest;
    }
  }

  /** One unfolding of `Split` on a string given as its first character and the rest. */
  lemma SplitCons(c: char, s: string, d: char)
    ensures Split([c] + s, d) ==
      if c == d then [""] + Split(s, d) else [[c] + Split(s, d)[0]] + Split(s, d)[1..]
  {
    assert ([c] + s)[1..] == s;
  }

  /**
    Splitting is incremental: the complete pieces of `x` stay complete, and
    only its unterminated last piece combines with whatever follows.
   */
  lemma {:induction false} SplitAppend(x: string, y: string, d: char)
    ensures Split(x + y, d) == AllButLast(Split(x, d)) + Split(Last(Split(x, d)) + y, d)
  {
    if |x| == 0 {
      assert x + y == y;
    } else {
      SplitAppend(x[1..], y, d);
      SplitAppendCons(x, y, d);
    }
  }

  /** The inductive step of `SplitAppend`: from the string without its first character to the whole. */
  lemma SplitAppendCons(x: string, y: string, d: char)
    requires |x| > 0
    requires Split(x[1..] + y, d) == AllButLast(Split(x[1..], d)) + Split(Last(Split(x[1..], d)) + y, d)
    ensures Split(x + y, d) == AllButLast(Split(x, d)) + Split(Last(Split(x, d)) + y, d)
  {
    var c, t := x[0], x[1..];
    assert x == [c] + t;
    assert x + y == [c] + (t + y);
    if c == d {
      SplitAppendLeadingDelimiter(t, y, d);
    } else if |Split(t, d)| > 1 {
      SplitAppendLongPiece(c, t, y, d);
    } else {
      SplitAppendSinglePiece(c, t, y, d);
    }
  }

  /** `SplitAppend`'s step when `[c] + t` starts with the delimiter. */
  lemma SplitAppendLeadingDelimiter(t: string, y: string, d: char)
    requires Split(t + y, d) == AllButLast(Split(t, d)) + Split(Last(Split(t, d)) + y, d)
    ensures Split([d] + (t + y), d) ==
      AllButLast(Split([d] + t, d)) + Split(Last(Split([d] + t, d)) + y, d)
  {
    SplitCons(d, t, d);
    SplitCons(d, t + y, d);
    var st := Split(t, d);
    PrependKeepsLast("", st, Split(Last(st) + y, d));
  }

  /** Putting an element in front changes neither the last element nor what follows the others. */
  lemma PrependKeepsLast<T>(a: T, xs: seq<T>, ys: seq<T>)
    requires |xs| >= 1
    ensures Last([a] + xs) == Last(xs)
    ensures AllButLast([a] + xs) + ys == [a] + (AllButLast(xs) + ys)
  {
    assert AllButLast([a] + xs) == [a] + AllButLast(xs);
  }

  /** `SplitAppend`'s step when `[c] + t` starts with another character and `t` holds a delimiter. */
  lemma SplitAppendLongPiece(c: char, t: string, y: string, d: char)
    requires c != d && |Split(t, d)| > 1
    requires Split(t + y, d) == AllButLast(Split(t, d)) + Split(Last(Split(t, d)) + y, d)
    ensures Split([c] + (t + y), d) ==
      AllButLast(Split([c] + t, d)) + Split(Last(Split([c] + t, d)) + y, d)
  {
    SplitCons(c, t, d);
    SplitCons(c, t + y, d);
    var st := Split(t, d);
    SplitAppendLongRest(c, st, Split(Last(st) + y, d));
  }

  /** `SplitAppend`'s step when `[c] + t` holds no delimiter at all. */
  lemma SplitAppendSinglePiece(c: char, t: string, y: string, d: char)
    requires c != d && |Split(t, d)| == 1
    ensures Split([c] + (t + y), d) ==
      AllButLast(Split([c] + t, d)) + Split(Last(Split([c] + t, d)) + y, d)
  {
    CountZero(t, d);
    var x := [c] + t;
    assert d !in x;
    SplitNoDelimiter(x, d);
    assert x + y == [c] + (t + y);
  }

  /** The sequence bookkeeping of `SplitAppend` when the first piece of `x` is not its last. */
  lemma SplitAppendLongRest(c: char, st: seq<string>, tail: seq<string>)
    requires |st| > 1
    ensures var r := AllButLast(st) + tail;
      [[c] + r[0]] + r[1..] == AllButLast([[c] + st[0]] + st[1..]) + tail
  {
    var r := AllButLast(st) + tail;
    assert r[0] == st[0];
    assert r[1..] == AllButLast(st)[1..] + tail;
    assert AllButLast([[c] + st[0]] + st[1..]) == [[c] + st[0]] + AllButLast(st)[1..];
  }

  /** A delimiter cuts the string into the pieces before it and after it. */
  lemma SplitAtDelimiter(x: string, y: string, d: char)
    ensures Split(x + [d] + y, d) == Split(x, d) + Split(y, d)
  {
    var l := Last(Split(x, d));
    SplitPiecesFree(x, d);
    SplitAppend(x, [d], d);
    SplitNoDelimiterPrefix(l, [d], d);
    SplitCons(d, "", d);
    assert [d] + "" == [d];
    assert l + "" == l;
    assert Split(l + [d], d) == [l, ""];
    assert Split(x, d) == AllButLast(Split(x, d)) + [l];
    assert Split(x + [d], d) == Split(x, d) + [""];
    SplitAppend(x + [d], y, d);
    assert "" + y == y;
  }

  /** A string ending in the delimiter ends with an empty piece. */
  lemma SplitEndsOnDelimiter(x: string, d: char)
    ensures Last(Split(x + [d], d)) == ""
  {
    SplitAtDelimiter(x, "", d);
    assert x + [d] + "" == x + [d];
  }

  /** A string ending in any other character ends with a non-empty piece. */
  lemma SplitEndsOnOther(x: string, c: char, d: char)
    requires c != d
    ensures Last(Split(x + [c], d)) != ""
  {
    var l := Last(Split(x, d));
    SplitPiecesFree(x, d);
    SplitAppend(x, [c], d);
    assert d !in l + [c];
    SplitNoDelimiter(l + [c], d);
  }

  // ---------------------------------------------------------------------
  // ASCII case mapping, as the C locale's `toupper` / `tolower` do it.

  predicate IsLower(c: char) { 'a' <= c <= 'z' }

  predicate IsUpperLetter(c: char) { 'A' <= c <= 'Z' }

  function UpperChar(c: char): char
  {
    if IsLower(c) then (c as int - 32) as char else c
  }

  function LowerChar(c: char): char
  {
    if IsUpperLetter(c) then (c as int + 32) as char else c
  }

  /** Two characters that differ at most in ASCII letter case. */
  predicate SameIgnoringCase(a: char, b: char)
  {
    LowerChar(a) == LowerChar(b)
  }

  /** Two strings that differ at most in the case of their letters. */
  predicate EqualIgnoringCase(a: string, b: string)
  {
    |a| == |b| && forall i :: 0 <= i < |a| ==> SameIgnoringCase(a[i], b[i])
  }

  /** No lower-case ASCII letter anywhere in `s`. */
  predicate IsUpperCase(s: string)
  {
    forall i :: 0 <= i < |s| ==> !IsLower(s[i])
  }

  /**
    Upper-cases the ASCII letters of `s`: the result has the same length, is
    upper case throughout, and matches `s` position by position up to case.
   */
  function Upper(s: string): (r: string)
    ensures IsUpperCase(r)
    ensures EqualIgnoringCase(r, s)
    ensures forall i :: 0 <= i < |s| && !IsLower(s[i]) ==> r[i] == s[i]
  {
    if |s| == 0 then "" else [UpperChar(s[0])] + Upper(s[1..])
  }

  /** Upper-casing leaves a string alone exactly when it is already upper case. */
  lemma UpperFixedPoint(s: string)
    ensures Upper(s) == s <==> IsUpperCase(s)
  {
    if IsUpperCase(s) {
      assert forall i :: 0 <= i < |s| ==> Upper(s)[i] == s[i];
    }
  }

  /** Upper-casing twice is the same as upper-casing once. */
  lemma UpperIdempotent(s: string)
    ensures Upper(Upper(s)) == Upper(s)
  {
    UpperFixedPoint(Upper(s));
  }

  // ---------------------------------------------------------------------
  // Decimal numbers.

  predicate IsDigit(c: char) { '0' <= c <= '9' }

  function DigitChar(n: nat): (c: char)
    requires n < 10
    ensures IsDigit(c)
  {
    ('0' as int + n) as char
  }

  function DigitValue(c: char): nat
    requires IsDigit(c)
  {
    c as int - '0' as int
  }

  /** Decimal rendering of `n` (stout's `stringify`): non-empty, digits only. */
  function Decimal(n: nat): (s: string)
    ensures |s| >= 1
    ensures forall i :: 0 <= i < |s| ==> IsDigit(s[i])
  {
    if n < 10 then [DigitChar(n)] else Decimal(n / 10) + [DigitChar(n % 10)]
  }

  predicate AllDigits(s: string)
  {
    forall i :: 0 <= i < |s| ==> IsDigit(s[i])
  }

  /** Value of a digit string, most significant digit first. */
  function DigitsValue(s: string): nat
    requires AllDigits(s)
  {
    if |s| == 0 then 0 else DigitsValue(s[..|s| - 1]) * 10 + DigitValue(s[|s| - 1])
  }

  /** A non-empty string of decimal digits denotes a number; anything else does not. */
  function ParseDecimal(s: string): (r: Option<nat>)
    ensures r.Some? <==> |s| >= 1 && AllDigits(s)
  {
    if |s| >= 1 && AllDigits(s) then Some(DigitsValue(s)) else None
  }

  /** Parsing undoes rendering. */
  lemma {:induction false} ParseDecimalRoundTrip(n: nat)
    ensures ParseDecimal(Decimal(n)) == Some(n)
  {
    var s := Decimal(n);
    if n >= 10 {
      ParseDecimalRoundTrip(n / 10);
      assert s[..|s| - 1] == Decimal(n / 10);
      assert DigitValue(s[|s| - 1]) == n % 10;
      assert DigitsValue(s) == (n / 10) * 10 + n % 10;
    } else {
      assert s[..0] == "";
      assert DigitsValue(s) == DigitValue(s[0]);
    }
  }

  /** A rendered number holds no character other than a digit. */
  lemma DecimalHasNo(n: nat, c: char)
    requires !IsDigit(c)
    ensures c !in Decimal(n)
  {
  }
}
